=== FILE: README.md ===
# Snake game rules, modelled in Dafny

This project models the simulation core of `snake.py`, a pygame Snake game
with one save file. Rendering and input polling are not modelled; the rules
are. The snake's body is a head-first sequence of pixel cells on a 400 x 400
screen. The head moves one 10-pixel cell per tick. Eating food adds the
food's weight (1..5) to the score. On an eating tick, the level rises once
the score reaches `level * 10`, so a game begun at a saved level 2 needs 20
points; the level stops at the highest entry of the three-level table. Each
level sets a tick rate, wall cells and a food timeout. The game ends when the
head leaves the screen, runs into the body or hits a wall. Pressing P pauses
the game and writes a snapshot. Every eating tick that reaches `level * 10`
writes the level record, even at level 3. Both go to the same single save
file.

Modules, one per concern:

- `Optional` (`optional.dfy`): the `Option` type.
- `Grid` (`grid.dfy`): screen constants, cells, directions, `Shift`, bounds.
- `Levels` (`levels.dfy`): the `LEVELS` table.
- `Food` (`food.dfy`): `generate_food`. Its random draws are an explicit
  `FoodDraws` input: the cell-index pairs drawn, in order, and the weight.
  Placement takes the first free draw. It returns `None` when no supplied
  draw is free, which stands for the retry loop still drawing.
- `UserStore` (`user_store.dfy`): the `UserData` class. The file is one
  `Option<Record>` slot. A record is either a level record or a game
  snapshot.
- `Game` (`game.dfy`): the loop of `game_loop`. `Tick` is one loop
  iteration: the key events, then `Advance` (move, eat or slide, level-up,
  collision, food timeout). Key events come in as a sequence. The food
  timeout comparison at line 228 comes in as the boolean `expired`. `Run`
  plays ticks until game over.

Behaviour of the code that is easy to miss:

- An eating tick keeps the whole old body, so `[(200, 200)]` moving onto
  food at `(210, 200)` becomes `[(210, 200), (200, 200)]`.
- Each arrow key is checked only against the direction left by the previous
  key. So two keys in one tick can turn the snake straight around. No
  "never reverses" invariant holds (`Game.TwoKeysCanReverse`).
- A snapshot has no `current_level` key. After a pause, a new `UserData`
  for the same name starts at level 1.
- The level is saved on every eating tick whose score reaches `level * 10`.
  At level 3 that means every such tick, although the level no longer
  changes.
- At level 3 a new game starts on the wall cell `(200, 200)`, heading right
  towards the wall cell `(210, 200)`. With no key in the first tick, the game
  ends on that tick (`Game.Level3OpeningTickHitsWall`).

## Model

| member | source | states |
|---|---|---|
| Grid.Opposite | snake.py:185-192 | the refused direction of each key differs from it and lies on the same axis |
| Grid.OppositeIsInvolution | snake.py:185-192 | refusing works both ways: the opposite of the opposite is the direction itself |
| Grid.Shift | snake.py:198-208 | the head moves exactly one cell, 10 units, in the key's direction (y grows downwards) and keeps the other coordinate |
| Grid.ShiftUndoneByOpposite | snake.py:198-206 | a move followed by the opposite move returns to the start cell |
| Grid.ShiftKeepsAlignment | snake.py:198-206 | moving keeps a head on the 10-unit cell lattice, which keeps every segment of a fresh game aligned |
| Levels.Lookup | snake.py:38-42 | a level number has a table entry exactly when it is 1, 2 or 3; any other raises KeyError |
| Levels.TableSize | snake.py:38-42 | the table has three entries, so `len(LEVELS)` is the highest level |
| Levels.TableShape | snake.py:38-42 | every wall lies on the grid; level 1 has no walls; speed rises and food timeout falls with the level |
| Food.FirstFree | snake.py:111-113 | the retry loop yields a cell exactly when some draw is free, and then it yields the first free draw, scaled to pixels |
| Food.GenerateFood | snake.py:108-116 | placed food is on a grid cell in [0, 390] squared, on neither the snake nor a wall, with weight 1..5; placement succeeds exactly when a free cell is drawn |
| Food.FreeCellCanBeDrawn | snake.py:108-113 | every free grid cell can be drawn, so the retry loop can end whenever a free cell exists |
| UserStore.LoadUserLevel | snake.py:53-61 | a record of another user, or no file, leaves the level alone; a level record of this user sets it; a snapshot of this user resets it to 1 because the key is missing |
| UserStore.NewUserData | snake.py:46-51 | a new `UserData` starts at the saved level of its own level record and at 1 otherwise |
| UserStore.SaveUserLevel | snake.py:63-69 | saving a level sets it in memory and leaves a level record that a later load reads back |
| UserStore.SaveGameState | snake.py:71-88 | saving a snapshot replaces the file with this user's snapshot and keeps the in-memory level |
| UserStore.LoadGameState | snake.py:90-99 | as written: returns the file's record exactly when it belongs to this user, whichever kind it is |
| UserStore.LoadSnapshot | snake.py:90-99 | corrected: returns a saved game exactly when the file holds this user's snapshot, and then that snapshot |
| UserStore.LevelRoundTrip | snake.py:53-67 | once a level is saved, `load_user_level` reads it back whatever level the object held in memory meanwhile |
| UserStore.SnapshotRoundTrip | snake.py:71-99 | save a snapshot, then load it for the same user: it comes back unchanged |
| UserStore.SnapshotForgetsLevel | snake.py:53-86 | after a snapshot write, the level loads as 1 |
| UserStore.ForeignRecordIgnored | snake.py:53-99 | another user's record yields level 1 and no saved game |
| UserStore.LastWriteWins | snake.py:63-88 | only the most recent write of the single file is visible to either load |
| UserStore.LevelRecordOfferedAsSavedGame | snake.py:90-99 | as written, a level record comes back as a saved game; the corrected load returns none |
| Game.NewGame | snake.py:154-163 | a fresh game starts with one segment at (200, 200), heading right, score 0, at the user's level and its speed, with valid food; it starts exactly when the level is in the table (else the KeyError of line 160) and some draw is free |
| Game.ResumeGame | snake.py:144-153 | a snapshot resumes, running and unpaused, exactly when it has a head and a known level, and it restores every saved field |
| Game.ResumeRecord | snake.py:144-153 | a level record cannot be resumed (KeyError); a snapshot resumes as `ResumeGame` does |
| Game.PauseResumeRoundTrip | snake.py:176-179 | the snapshot written on pause resumes the same game, unpaused |
| Game.ResumeAfterLevelUpFails | snake.py:284-300 | after a level-up, the start-up path offers a saved game whose loading raises |
| Game.Turn | snake.py:185-192 | a key for the opposite of the current direction is ignored; any other arrow key becomes the direction |
| Game.HandleEvent | snake.py:172-192 | one event: a quit clears `running`; P flips the pause flag and, when it pauses, saves a snapshot of the game as it stands; an arrow key turns by the turn rule only while unpaused; body, food, score, level and speed never change |
| Game.HandleEvents | snake.py:172-192 | events change only the direction, the flags and the save file; each P flips the pause flag; a quit clears `running`; paused without P, keys are ignored and nothing is saved |
| Game.OneKeyNeverReverses | snake.py:185-192 | a tick with a single arrow key sets the direction by the turn rule, so it never turns the snake straight around |
| Game.TwoKeysCanReverse | snake.py:172-192 | Up then Left in one tick turns a right-moving snake to the left |
| Game.Collides | snake.py:223-224 | an aligned head that survives the game-over test lies on a cell of the food range `randint(0, 39) * 10` |
| Game.NextLevel | snake.py:214-215 | the level after the move step is in the table, rises by at most one, and changes only when the eating tick reaches `level * 10` |
| Game.NextBody | snake.py:209-220 | the body after the move step starts with the new head and is one longer after eating, the same length otherwise |
| Game.Advance | snake.py:197-229 | the move step completes exactly when the draws of each placement it needs (after eating, after a timeout) contain a free cell, and it keeps the state valid |
| Game.Tick | snake.py:168-229 | a tick left paused by its events changes only what the events changed; otherwise it completes exactly when the move step does; it keeps the state valid |
| Game.HeadShift | snake.py:198-209 | the new head is the old head shifted one cell along the current direction |
| Game.NonEatingMove | snake.py:209-220 | without food under the head, the body is the new head plus the old body without its tail; length, score, level, speed and the save file are unchanged |
| Game.EatingMove | snake.py:209-213 | with food under the head, the body grows by one, keeps the whole old body, and the score rises by exactly the food weight |
| Game.LevelUpRule | snake.py:212-217 | the level changes only on an eating tick reaching `level * 10`, rises by at most one and never past 3; on that tick the speed comes from the table and the level is saved; on any other tick speed and the save file are unchanged |
| Game.GameOverRule | snake.py:222-225 | the game ends exactly when the new head is off-screen, on the body behind it, or on a wall of the level in force after the tick |
| Game.FoodRespawn | snake.py:212-229 | food placed after eating or a timeout lies on a free grid cell of the new body and walls |
| Game.PausedTickChangesNothing | snake.py:172-195 | a paused tick without P changes nothing except that a quit event clears `running` |
| Game.TickPreservesInv | snake.py:168-229 | every tick keeps food on a free cell, the body non-empty and on the cell lattice, and the level in the table, and never lowers level or score |
| Game.Run | snake.py:168-225 | over any number of ticks until game over, the invariant holds and level and score never decrease |
| Game.EatScenario | snake.py:198-220 | body [(200, 200)] moving right onto weight-3 food becomes [(210, 200), (200, 200)] with score 3 at level 1 |
| Game.LevelUpScenario | snake.py:212-218 | reaching 10 points at level 1 gives level 2, speed 13 and a saved level 2 |
| Game.OutOfBoundsScenario | snake.py:222-225 | a head moving to (-10, 200) ends the game |
| Game.Level3OpeningTickHitsWall | snake.py:154-225 | a level-3 game with no key in its first tick ends on that tick |

## Left out

- Rendering, fonts, `clock.tick` pacing, username entry and the welcome and load-choice screens: these are UI and I/O. `speed` is kept as a number only.
- Wall-clock time: `food_timer` and `time.time()` are left out. The line 228 comparison is the `expired` input, evaluated after any respawn on that tick. On an eating tick, line 218 has just reset `food_timer`, so in the program the comparison is in practice false. The model still lets `expired` be true there, which only admits more behaviours than the program has.
- Randomness: `random.randint` results are the `FoodDraws` inputs. A placement that finds no free cell among its draws makes `GenerateFood`, `Advance` and `Tick` return `None`. In Python the loop would keep drawing, or never end on a full grid.
- JSON, file existence checks and exception printing: the file is one `Option<Record>` slot. A corrupt file behaves like a record of another user, giving defaults. Failed writes are not modelled.
- JSON round trip of the body: after a resume, Python holds the pre-pause body segments as lists, not tuples. Those segments never compare equal to a tuple in the `in` tests of line 224 or in the `(food_x, food_y) in snake_body` test of line 111. So after a resume the program can run the head through an old segment and can place food on one. The model treats all positions as integer pairs and does not reproduce this.
- Game.TickPreservesInv and Game.Run: the "food on a free cell" part of the invariant holds for the model, but not for the program after a resume, because of the line 111 test above. Both lemmas also start only from states satisfying the invariant, which `NewGame` builds and a resumed snapshot need not.
- Game.Tick: requires a non-empty body and a known level, which every state built by `NewGame`, `ResumeGame` and `Tick` has. A state breaking either makes Python raise on the first unpaused tick.
- Game.ResumeGame: refuses a snapshot with an empty body or an unknown level at once. Python accepts it. An empty body raises IndexError on the first unpaused tick. An unknown level raises KeyError on the first unpaused tick unless that tick eats and line 215 brings the level into the table. For example, level 0 with an eating first tick passes line 214 and becomes level 1.
- Restart: line 261 calls `game_loop` recursively. Here a restart is `NewGame` called again with the same `UserData`.
- `phonebook.py` is not part of this model. It is SQL sent to an external database, plus console I/O.

## Findings

| source | as written | input that shows it | evidently intended | confidence | as-written member | corrected member |
|---|---|---|---|---|---|---|
| snake.py:90-99 | `load_game_state` returns any record with this user's name, including the `{username, current_level}` record written on a level-up | level up (the file now holds a level record), quit, start again under the same name, press S: `game_loop` reads `load_state["score"]` and raises KeyError | only a game snapshot is offered as a saved game | high; not executed | UserStore.LevelRecordOfferedAsSavedGame | UserStore.LoadSnapshot |

=== FILE: food.dfy ===
/** `generate_food` of snake.py with its randomness made explicit: the
    random draws it would make are supplied as input. */
module Food {

  import opened Optional
  import opened Grid

  datatype Food = Food(cell: Cell, weight: int)

  /** Largest cell index a coordinate is drawn from: `(400 - 10) // 10`. */
  const MaxIndex: int := (ScreenWidth - SnakeSize) / SnakeSize
  const MinWeight: int := 1
  const MaxWeight: int := 5

  /** The values `random.randint` returns during one call: a pair of cell
      indices per attempt, in drawing order, and the weight drawn after the
      retry loop has found a free cell. */
  datatype FoodDraws = FoodDraws(cells: seq<(int, int)>, weight: int)

  /** What `randint(0, 39)` and `randint(1, 5)` can return. */
  predicate DrawsInRange(d: FoodDraws) {
    && (forall i :: 0 <= i < |d.cells| ==> 0 <= d.cells[i].0 <= MaxIndex && 0 <= d.cells[i].1 <= MaxIndex)
    && MinWeight <= d.weight <= MaxWeight
  }

  function Scale(p: (int, int)): Cell {
    (p.0 * SnakeSize, p.1 * SnakeSize)
  }

  /** The retry loop's condition, negated. */
  predicate Free(c: Cell, body: seq<Cell>, walls: seq<Cell>) {
    c !in body && c !in walls
  }

  /** What a freshly placed food satisfies. */
  predicate FoodOk(f: Food, body: seq<Cell>, walls: seq<Cell>) {
    OnGrid(f.cell) && Free(f.cell, body, walls) && MinWeight <= f.weight <= MaxWeight
  }

  /** The retry loop: the first drawn cell that is neither on the snake nor
      on a wall, or None when every supplied draw is occupied. */
  function FirstFree(cells: seq<(int, int)>, body: seq<Cell>, walls: seq<Cell>): (r: Option<Cell>)
    ensures r.Some? <==> exists i :: 0 <= i < |cells| && Free(Scale(cells[i]), body, walls)
    ensures r.Some? ==>
      exists i :: 0 <= i < |cells| && r.value == Scale(cells[i]) && Free(r.value, body, walls)
        && forall j :: 0 <= j < i ==> !Free(Scale(cells[j]), body, walls)
    decreases |cells|
  {
    if |cells| == 0 then None
    else if Free(Scale(cells[0]), body, walls) then Some(Scale(cells[0]))
    else
      var r := FirstFree(cells[1..], body, walls);
      assert forall i :: 1 <= i < |cells| ==> cells[i] == cells[1..][i - 1];
      if r.Some? then
        var k :| 0 <= k < |cells[1..]| && r.value == Scale(cells[1..][k]) && Free(r.value, body, walls)
          && forall j :: 0 <= j < k ==> !Free(Scale(cells[1..][j]), body, walls);
        assert forall j :: 0 <= j < k + 1 ==> !Free(Scale(cells[j]), body, walls) by {
          forall j | 0 <= j < k + 1
            ensures !Free(Scale(cells[j]), body, walls)
          {
            if j > 0 {
              assert cells[j] == cells[1..][j - 1];
            }
          }
        }
        r
      else
        r
  }

  /** `generate_food(snake_body, walls)`. */
  function GenerateFood(body: seq<Cell>, walls: seq<Cell>, draws: FoodDraws): (r: Option<Food>)
    requires DrawsInRange(draws)
    ensures r.Some? <==> exists i :: 0 <= i < |draws.cells| && Free(Scale(draws.cells[i]), body, walls)
    ensures r.Some? ==> FoodOk(r.value, body, walls) && r.value.weight == draws.weight
  {
    match FirstFree(draws.cells, body, walls)
    case None => None
    case Some(c) => Some(Food(c, draws.weight))
  }

  /** Whenever some cell of the grid is free, there are draws that place the
      food there, so the retry loop can terminate. */
  lemma FreeCellCanBeDrawn(body: seq<Cell>, walls: seq<Cell>, c: Cell, w: int)
    requires OnGrid(c) && Free(c, body, walls) && MinWeight <= w <= MaxWeight
    ensures DrawsInRange(FoodDraws([(c.0 / SnakeSize, c.1 / SnakeSize)], w))
    ensures GenerateFood(body, walls, FoodDraws([(c.0 / SnakeSize, c.1 / SnakeSize)], w)) == Some(Food(c, w))
  {
    assert Scale((c.0 / SnakeSize, c.1 / SnakeSize)) == c;
  }
}

=== FILE: game.dfy ===
/** The simulation inside `game_loop` of snake.py, one loop iteration
    (a tick) at a time, with keyboard events, the food-timeout comparison and
    the random draws of food placement supplied as inputs. */
module Game {

  import opened Optional
  import opened Grid
  import opened Levels
  import opened Food
  import opened UserStore

  /** The keys the loop reacts to; every other key is `OtherKey`. */
  datatype Key = PauseKey | Arrow(d: Direction) | OtherKey

  /** `pygame.QUIT`, a `KEYDOWN`, or any other event. */
  datatype Event = QuitEvent | KeyPress(key: Key) | OtherEvent

  /** The local variables of `game_loop`. */
  datatype GameState = GameState(
    body: seq<Cell>,
    dir: Direction,
    score: int,
    level: int,
    speed: int,
    food: Food,
    running: bool,
    paused: bool)

  /** A game together with the `UserData` it saves through. */
  datatype World = World(game: GameState, user: UserData)

  /** The inputs of one tick: the events polled, whether the food-timeout
      test of `game_loop` fires, and the random draws of the
      `generate_food` calls after eating and after a timeout. */
  datatype TickInput = TickInput(events: seq<Event>, expired: bool, eat: FoodDraws, respawn: FoodDraws)

  /** The snake starts in the middle of the screen. */
  const StartCell: Cell := (ScreenWidth / 2, ScreenHeight / 2)

  /** What a tick needs to run without Python raising: a head to move and a
      level that is in the table. */
  predicate Valid(g: GameState) {
    |g.body| > 0 && IsLevel(g.level)
  }

  /** Every segment sits on the cell lattice. */
  predicate BodyAligned(body: seq<Cell>) {
    forall i :: 0 <= i < |body| ==> Aligned(body[i])
  }

  /** The invariant of every game started fresh: a valid state with a
      non-negative score, every segment on the cell lattice, and food placed
      on a free grid cell. */
  predicate Inv(g: GameState) {
    && Valid(g) && g.score >= 0 && BodyAligned(g.body)
    && FoodOk(g.food, g.body, Walls(g.level))
  }

  predicate InputInRange(t: TickInput) {
    DrawsInRange(t.eat) && DrawsInRange(t.respawn)
  }

  function Min(a: int, b: int): int {
    if a <= b then a else b
  }

  function Snapshot(g: GameState): SavedGame {
    SavedGame(g.score, g.level, g.body, g.dir, g.food, g.speed)
  }

  // ---------------------------------------------------------------------
  // Starting a game

  /** `game_loop(user_data)` without a saved state: None where the user's
      level is not in the table (KeyError) or where no supplied draw is
      free. Restarting after game over is the same call. */
  function NewGame(user: UserData, draws: FoodDraws): (r: Option<GameState>)
    requires DrawsInRange(draws)
    ensures r.Some? ==> Inv(r.value) && r.value.running && !r.value.paused
    ensures r.Some? ==> r.value.body == [StartCell] && r.value.dir == Right && r.value.score == 0
    ensures r.Some? ==> r.value.level == user.currentLevel && r.value.speed == Speed(r.value.level)
    ensures r.Some? <==>
      (IsLevel(user.currentLevel) && GenerateFood([StartCell], Walls(user.currentLevel), draws).Some?)
  {
    match Lookup(user.currentLevel)
    case None => None
    case Some(def) =>
      match GenerateFood([StartCell], def.walls, draws)
      case None => None
      case Some(f) => Some(GameState([StartCell], Right, 0, user.currentLevel, def.speed, f, true, false))
  }

  /** `game_loop(user_data, load_state)` for a snapshot: None where the
      snapshot would make the first tick raise (empty body, unknown level). */
  function ResumeGame(s: SavedGame): (r: Option<GameState>)
    ensures r.Some? <==> |s.body| > 0 && IsLevel(s.level)
    ensures r.Some? ==> Valid(r.value) && r.value.running && !r.value.paused
    ensures r.Some? ==> Snapshot(r.value) == s
  {
    if |s.body| > 0 && IsLevel(s.level) then
      Some(GameState(s.body, s.dir, s.score, s.level, s.speed, s.food, true, false))
    else None
  }

  /** `game_loop(user_data, load_state)` for any record `load_game_state`
      returns: a level record has no `score` key, so Python raises KeyError. */
  function ResumeRecord(rec: Record): (r: Option<GameState>)
    ensures rec.LevelRecord? ==> r.None?
    ensures rec.GameRecord? ==> r == ResumeGame(rec.game)
  {
    match rec
    case LevelRecord(_, _) => None
    case GameRecord(_, s) => ResumeGame(s)
  }

  /** Pausing writes a snapshot from which the same game resumes, unpaused. */
  lemma PauseResumeRoundTrip(w: World)
    requires Valid(w.game)
    ensures LoadSnapshot(SaveGameState(w.user, Snapshot(w.game))).Some?
    ensures ResumeGame(LoadSnapshot(SaveGameState(w.user, Snapshot(w.game))).value)
         == Some(w.game.(running := true, paused := false))
  {
    SnapshotRoundTrip(w.user, Snapshot(w.game));
  }

  /** The as-written start-up path fails on a level record: after any
      level-up, choosing to load the "saved game" raises. */
  lemma ResumeAfterLevelUpFails(u: UserData, level: int)
    ensures LoadGameState(SaveUserLevel(u, level)).Some?
    ensures ResumeRecord(LoadGameState(SaveUserLevel(u, level)).value).None?
  {
    LevelRecordOfferedAsSavedGame(u, level);
  }

  // ---------------------------------------------------------------------
  // Events

  /** The arrow-key chain of `game_loop` for one key press: a key for the
      exact opposite of the current direction is ignored; any other arrow
      key becomes the direction. */
  function Turn(dir: Direction, key: Direction): (r: Direction)
    ensures key == Opposite(dir) ==> r == dir
    ensures key != Opposite(dir) ==> r == key
  {
    match key
    case Left => if dir != Right then Left else dir
    case Right => if dir != Left then Right else dir
    case Up => if dir != Down then Up else dir
    case Down => if dir != Up then Down else dir
  }

  /** One event of the polling loop. Quitting only clears `running`: the
      rest of the iteration still runs. Pausing saves a snapshot of the game
      as it stands at that event. */
  function HandleEvent(w: World, e: Event): (r: World)
    ensures r.game.body == w.game.body && r.game.food == w.game.food
    ensures r.game.score == w.game.score && r.game.level == w.game.level && r.game.speed == w.game.speed
    ensures r.game.running <==> w.game.running && e != QuitEvent
    ensures r.game.paused <==> (w.game.paused != (e == KeyPress(PauseKey)))
    ensures e == KeyPress(PauseKey) && !w.game.paused ==>
      r.user == SaveGameState(w.user, Snapshot(w.game)) && r.game.dir == w.game.dir
    ensures e != KeyPress(PauseKey) || w.game.paused ==> r.user == w.user
    ensures e.KeyPress? && e.key.Arrow? && !w.game.paused ==> r.game.dir == Turn(w.game.dir, e.key.d)
    ensures !(e.KeyPress? && e.key.Arrow? && !w.game.paused) ==> r.game.dir == w.game.dir
  {
    match e
    case QuitEvent => w.(game := w.game.(running := false))
    case OtherEvent => w
    case KeyPress(PauseKey) =>
      if w.game.paused then w.(game := w.game.(paused := false))
      else World(w.game.(paused := true), SaveGameState(w.user, Snapshot(w.game)))
    case KeyPress(Arrow(d)) =>
      if w.game.paused then w else w.(game := w.game.(dir := Turn(w.game.dir, d)))
    case KeyPress(OtherKey) => w
  }

  function Pauses(events: seq<Event>): nat {
    if |events| == 0 then 0
    else (if events[0] == KeyPress(PauseKey) then 1 else 0) + Pauses(events[1..])
  }

  /** The event loop of `game_loop`, in polling order. Only the
      direction, the two flags and the save file can change; the pause flag
      flips once per pause key; a quit event clears `running`. */
  function HandleEvents(w: World, events: seq<Event>): (r: World)
    ensures r.game.body == w.game.body && r.game.food == w.game.food
    ensures r.game.score == w.game.score && r.game.level == w.game.level && r.game.speed == w.game.speed
    ensures r.user.username == w.user.username && r.user.currentLevel == w.user.currentLevel
    ensures r.game.running <==> w.game.running && QuitEvent !in events
    ensures r.game.paused <==> (w.game.paused != (Pauses(events) % 2 == 1))
    ensures Pauses(events) == 0 ==> r.user == w.user
    ensures Pauses(events) == 0 && w.game.paused ==> r.game.dir == w.game.dir
    decreases |events|
  {
    if |events| == 0 then w
    else
      assert events == [events[0]] + events[1..];
      HandleEvents(HandleEvent(w, events[0]), events[1..])
  }

  /** A single arrow key never turns the snake straight around. */
  lemma OneKeyNeverReverses(w: World, d: Direction)
    requires !w.game.paused
    ensures HandleEvents(w, [KeyPress(Arrow(d))]).game.dir == Turn(w.game.dir, d)
    ensures HandleEvents(w, [KeyPress(Arrow(d))]).game.dir != Opposite(w.game.dir)
  {
    assert [KeyPress(Arrow(d))][1..] == [];
  }

  /** Each key is checked against the direction left by the previous one, so
      two keys in one tick can reverse the snake onto its own body. */
  lemma TwoKeysCanReverse(w: World)
    requires !w.game.paused && w.game.dir == Right
    ensures HandleEvents(w, [KeyPress(Arrow(Up)), KeyPress(Arrow(Left))]).game.dir == Left
  {
    var es := [KeyPress(Arrow(Up)), KeyPress(Arrow(Left))];
    assert es[1..] == [KeyPress(Arrow(Left))];
    assert es[1..][1..] == [];
  }

  // ---------------------------------------------------------------------
  // Moving

  function NextHead(g: GameState): Cell
    requires |g.body| > 0
  {
    Shift(g.body[0], g.dir)
  }

  predicate Ate(g: GameState)
    requires |g.body| > 0
  {
    NextHead(g) == g.food.cell
  }

  /** The eating branch reaches the next level's threshold. */
  predicate LevelsUp(g: GameState)
    requires |g.body| > 0
  {
    Ate(g) && g.score + g.food.weight >= g.level * PointsPerLevel
  }

  /** The level in force after the move step. */
  function NextLevel(g: GameState): (r: int)
    requires Valid(g)
    ensures IsLevel(r) && g.level <= r <= g.level + 1
    ensures r != g.level ==> LevelsUp(g)
  {
    if LevelsUp(g) then Min(g.level + 1, LevelCount) else g.level
  }

  /** The body after the move step: grown by the new head, and without its
      tail unless the snake ate. */
  function NextBody(g: GameState): (r: seq<Cell>)
    requires Valid(g)
    ensures |r| > 0 && r[0] == NextHead(g)
    ensures |r| == if Ate(g) then |g.body| + 1 else |g.body|
  {
    var grown := [NextHead(g)] + g.body;
    if Ate(g) then grown else grown[..|grown| - 1]
  }

  /** Some supplied draw is free on `body` and `walls`: the retry loop of
      food placement ends within the draws. */
  predicate DrawsSuffice(d: FoodDraws, body: seq<Cell>, walls: seq<Cell>) {
    exists i :: 0 <= i < |d.cells| && Free(Scale(d.cells[i]), body, walls)
  }

  /** The draws a tick consumes contain a free cell wherever a placement
      happens: after eating, and after a food timeout. */
  predicate MoveCompletes(g: GameState, eat: FoodDraws, expired: bool, respawn: FoodDraws)
    requires Valid(g)
  {
    && (Ate(g) ==> DrawsSuffice(eat, NextBody(g), Walls(NextLevel(g))))
    && (expired ==> DrawsSuffice(respawn, NextBody(g), Walls(NextLevel(g))))
  }

  /** The game-over test of `game_loop` on the moved body: off the
      screen, on a segment behind the head, or on a wall. An aligned head
      that survives it is a cell food placement can draw. */
  predicate Collides(head: Cell, body: seq<Cell>, walls: seq<Cell>)
    requires |body| > 0
    ensures Aligned(head) && !Collides(head, body, walls) ==> OnGrid(head)
  {
    !InBounds(head) || head in body[1..] || head in walls
  }

  /** The move step of `game_loop`: move the head one cell, eat or drop the tail, level up,
      test for collision, and respawn expired food. None when a food
      placement finds no free cell among its draws. */
  function Advance(w: World, eat: FoodDraws, expired: bool, respawn: FoodDraws): (r: Option<World>)
    requires Valid(w.game) && DrawsInRange(eat) && DrawsInRange(respawn)
    ensures r.None? ==> Ate(w.game) || expired
    ensures r.Some? <==> MoveCompletes(w.game, eat, expired, respawn)
    ensures r.Some? ==> Valid(r.value.game)
  {
    var g := w.game;
    var head := NextHead(g);
    var grown := [head] + g.body;
    var ate := head == g.food.cell;
    var score := if ate then g.score + g.food.weight else g.score;
    var levelUp := ate && score >= g.level * PointsPerLevel;
    var level := NextLevel(g);
    var speed := if levelUp then Speed(level) else g.speed;
    var user := if levelUp then SaveUserLevel(w.user, level) else w.user;
    var body := NextBody(g);
    var running := g.running && !Collides(head, body, Walls(level));
    var placed := if ate then GenerateFood(grown, Walls(level), eat) else Some(g.food);
    if placed.None? then None
    else
      var food := if expired then GenerateFood(body, Walls(level), respawn) else placed;
      if food.None? then None
      else Some(World(GameState(body, g.dir, score, level, speed, food.value, running, g.paused), user))
  }

  /** One iteration of the `while running` loop. A paused game skips
      everything after the events. */
  function Tick(w: World, t: TickInput): (r: Option<World>)
    requires Valid(w.game) && InputInRange(t)
    ensures r.Some? ==> Valid(r.value.game)
    ensures HandleEvents(w, t.events).game.paused ==> r == Some(HandleEvents(w, t.events))
    ensures !HandleEvents(w, t.events).game.paused ==>
      (r.Some? <==> MoveCompletes(HandleEvents(w, t.events).game, t.eat, t.expired, t.respawn))
  {
    var w1 := HandleEvents(w, t.events);
    if w1.game.paused then Some(w1) else Advance(w1, t.eat, t.expired, t.respawn)
  }

  // ---------------------------------------------------------------------
  // Properties of one tick

  /** The head moves exactly one cell along the current direction; the rest
      of the state's direction and pause flag are untouched. */
  lemma HeadShift(w: World, eat: FoodDraws, expired: bool, respawn: FoodDraws)
    requires Valid(w.game) && DrawsInRange(eat) && DrawsInRange(respawn)
    requires Advance(w, eat, expired, respawn).Some?
    ensures var g' := Advance(w, eat, expired, respawn).value.game;
      && g'.body[0] == Shift(w.game.body[0], w.game.dir)
      && g'.dir == w.game.dir && g'.paused == w.game.paused
  {
  }

  /** Without food under the new head the body slides: the new head, then
      the old body minus its last segment. Score, level, speed and the saved
      data are untouched, and the food stays unless it expired. */
  lemma NonEatingMove(w: World, eat: FoodDraws, expired: bool, respawn: FoodDraws)
    requires Valid(w.game) && DrawsInRange(eat) && DrawsInRange(respawn)
    requires !Ate(w.game)
    requires Advance(w, eat, expired, respawn).Some?
    ensures var w' := Advance(w, eat, expired, respawn).value;
      && |w'.game.body| == |w.game.body|
      && w'.game.body == [NextHead(w.game)] + w.game.body[..|w.game.body| - 1]
      && w'.game.score == w.game.score && w'.game.level == w.game.level
      && w'.game.speed == w.game.speed && w'.user == w.user
      && (!expired ==> w'.game.food == w.game.food)
  {
  }

  /** With food under the new head the body grows by one, keeping the
      whole old body, and the score rises by exactly the food's weight. */
  lemma EatingMove(w: World, eat: FoodDraws, expired: bool, respawn: FoodDraws)
    requires Valid(w.game) && DrawsInRange(eat) && DrawsInRange(respawn)
    requires Ate(w.game)
    requires Advance(w, eat, expired, respawn).Some?
    ensures var g' := Advance(w, eat, expired, respawn).value.game;
      && g'.body == [NextHead(w.game)] + w.game.body
      && |g'.body| == |w.game.body| + 1
      && g'.score == w.game.score + w.game.food.weight
  {
  }

  /** The level changes only on an eating tick reaching `level * 10`; it
      rises by at most one and never past `LevelCount`; on that tick the
      speed comes from the table and the user's level is saved. */
  lemma LevelUpRule(w: World, eat: FoodDraws, expired: bool, respawn: FoodDraws)
    requires Valid(w.game) && DrawsInRange(eat) && DrawsInRange(respawn)
    requires Advance(w, eat, expired, respawn).Some?
    ensures var w' := Advance(w, eat, expired, respawn).value;
      && w.game.level <= w'.game.level <= Min(w.game.level + 1, LevelCount)
      && (w'.game.level != w.game.level ==> LevelsUp(w.game))
      && (LevelsUp(w.game) ==>
            && w'.game.level == Min(w.game.level + 1, LevelCount)
            && w'.game.speed == Speed(w'.game.level)
            && w'.user.currentLevel == w'.game.level
            && w'.user.file == Some(LevelRecord(w.user.username, w'.game.level)))
      && (!LevelsUp(w.game) ==> w'.game.speed == w.game.speed && w'.user == w.user)
  {
  }

  /** The game ends exactly when the new head leaves the screen, lands on
      the body behind it, or lands on a wall of the level in force after
      the tick. */
  lemma GameOverRule(w: World, eat: FoodDraws, expired: bool, respawn: FoodDraws)
    requires Valid(w.game) && DrawsInRange(eat) && DrawsInRange(respawn)
    requires Advance(w, eat, expired, respawn).Some?
    ensures var g' := Advance(w, eat, expired, respawn).value.game;
      var head := NextHead(w.game);
      g'.running <==> w.game.running && InBounds(head) && head !in g'.body[1..] && head !in Walls(g'.level)
  {
  }

  /** Food placed during the tick is on a free grid cell of the new body
      and the new level's walls, with weight 1..5. */
  lemma FoodRespawn(w: World, eat: FoodDraws, expired: bool, respawn: FoodDraws)
    requires Valid(w.game) && DrawsInRange(eat) && DrawsInRange(respawn)
    requires Ate(w.game) || expired
    requires Advance(w, eat, expired, respawn).Some?
    ensures var g' := Advance(w, eat, expired, respawn).value.game;
      FoodOk(g'.food, g'.body, Walls(g'.level))
  {
  }

  /** While the game stays paused, a tick changes nothing but what quit
      events clear: direction keys are ignored and nothing is saved. */
  lemma PausedTickChangesNothing(w: World, t: TickInput)
    requires Valid(w.game) && InputInRange(t)
    requires w.game.paused && Pauses(t.events) == 0
    ensures Tick(w, t) == Some(w.(game := w.game.(running := w.game.running && QuitEvent !in t.events)))
  {
  }

  /** Every tick keeps the invariant of fresh games, never lowers the level
      or the score, and never raises the level past the table. */
  lemma TickPreservesInv(w: World, t: TickInput)
    requires Inv(w.game) && InputInRange(t)
    requires Tick(w, t).Some?
    ensures Inv(Tick(w, t).value.game)
    ensures w.game.level <= Tick(w, t).value.game.level <= LevelCount
    ensures w.game.score <= Tick(w, t).value.game.score
  {
    // The new head stays aligned as ShiftKeepsAlignment states; every
    // other segment was already in the body.
  }

  /** Play ticks while the game is running; game over ends the run and the
      remaining inputs are not consumed. */
  function Run(w: World, inputs: seq<TickInput>): (r: Option<World>)
    requires Inv(w.game)
    requires forall i :: 0 <= i < |inputs| ==> InputInRange(inputs[i])
    ensures r.Some? ==> Inv(r.value.game)
    ensures r.Some? ==> w.game.level <= r.value.game.level <= LevelCount
    ensures r.Some? ==> w.game.score <= r.value.game.score
    decreases |inputs|
  {
    if |inputs| == 0 || !w.game.running then Some(w)
    else
      match Tick(w, inputs[0])
      case None => None
      case Some(w1) =>
        TickPreservesInv(w, inputs[0]);
        Run(w1, inputs[1..])
  }

  // ---------------------------------------------------------------------
  // Scenarios

  /** Body [(200, 200)] moving right onto food (210, 200) of weight 3 at
      level 1: the body grows to [(210, 200), (200, 200)], the score is 3
      and the level stays 1. */
  lemma EatScenario(u: UserData, eat: FoodDraws)
    requires DrawsInRange(eat) && eat.cells == [(0, 0)]
    ensures var g := GameState([(200, 200)], Right, 0, 1, 10, Food((210, 200), 3), true, false);
      var r := Advance(World(g, u), eat, false, eat);
      && r.Some?
      && r.value.game.body == [(210, 200), (200, 200)]
      && r.value.game.score == 3 && r.value.game.level == 1 && r.value.game.running
  {
    assert Free(Scale((0, 0)), [(210, 200), (200, 200)], Walls(1));
  }

  /** Reaching 10 points at level 1 moves to level 2 at speed 13 and saves
      level 2. */
  lemma LevelUpScenario(u: UserData, eat: FoodDraws)
    requires DrawsInRange(eat) && eat.cells == [(0, 0)]
    ensures var g := GameState([(200, 200)], Right, 7, 1, 10, Food((210, 200), 3), true, false);
      var r := Advance(World(g, u), eat, false, eat);
      && r.Some?
      && r.value.game.score == 10 && r.value.game.level == 2 && r.value.game.speed == 13
      && r.value.user.file == Some(LevelRecord(u.username, 2))
  {
    assert Free(Scale((0, 0)), [(210, 200), (200, 200)], Walls(2));
  }

  /** A head moving to (-10, 200) ends the game. */
  lemma OutOfBoundsScenario(w: World, eat: FoodDraws, respawn: FoodDraws)
    requires DrawsInRange(eat) && DrawsInRange(respawn)
    requires w.game.body == [(0, 200)] && w.game.dir == Left && IsLevel(w.game.level)
    requires w.game.food.cell != (-10, 200)
    ensures Advance(w, eat, false, respawn).Some?
    ensures !Advance(w, eat, false, respawn).value.game.running
  {
  }

  /** At level 3 the start cell is itself a wall and the cell to its right
      is one too: a new game that gets no key in its first tick ends on
      that tick. */
  lemma Level3OpeningTickHitsWall(u: UserData, draws: FoodDraws, t: TickInput)
    requires DrawsInRange(draws) && InputInRange(t)
    requires u.currentLevel == 3 && NewGame(u, draws).Some?
    requires t.events == [] && Tick(World(NewGame(u, draws).value, u), t).Some?
    ensures !Tick(World(NewGame(u, draws).value, u), t).value.game.running
  {
    var g := NewGame(u, draws).value;
    assert NextHead(g) == (210, 200);
    assert NextHead(g) in Walls(3);
    assert !Ate(g);
  }
}

=== FILE: grid.dfy ===
/** The playing field of snake.py: a 400 x 400 pixel screen walked in steps
    of one 10-pixel cell. As on the screen, y grows downwards, so `Up`
    decreases y. */
module Grid {

  const ScreenWidth: int := 400
  const ScreenHeight: int := 400
  /** Side of one cell, and the distance the head travels per tick. */
  const SnakeSize: int := 10

  /** A pixel position (x, y); the source's `(snake_x, snake_y)` tuples. */
  type Cell = (int, int)

  datatype Direction = Left | Right | Up | Down

  function Abs(n: int): nat {
    if n < 0 then -n else n
  }

  predicate Horizontal(d: Direction) {
    d == Left || d == Right
  }

  /** The direction a key is refused for: pressing it would turn the snake
      straight back onto itself. */
  function Opposite(d: Direction): (r: Direction)
    ensures r != d
    ensures Horizontal(r) == Horizontal(d)
  {
    match d
    case Left => Right
    case Right => Left
    case Up => Down
    case Down => Up
  }

  lemma OppositeIsInvolution(d: Direction)
    ensures Opposite(Opposite(d)) == d
  {
  }

  /** The game-over bounds test: x in [0, 400) and y in [0, 400). */
  predicate InBounds(c: Cell) {
    0 <= c.0 < ScreenWidth && 0 <= c.1 < ScreenHeight
  }

  /** A position on the cell lattice: both coordinates multiples of 10. */
  predicate Aligned(c: Cell) {
    c.0 % SnakeSize == 0 && c.1 % SnakeSize == 0
  }

  /** A cell-aligned position whose whole cell lies on the screen. */
  predicate OnGrid(c: Cell) {
    && Aligned(c)
    && 0 <= c.0 <= ScreenWidth - SnakeSize
    && 0 <= c.1 <= ScreenHeight - SnakeSize
  }

  /** The head's move for one tick: one cell along `d`. */
  function Shift(c: Cell, d: Direction): (r: Cell)
    ensures Abs(r.0 - c.0) + Abs(r.1 - c.1) == SnakeSize
    ensures Horizontal(d) ==> r.1 == c.1
    ensures !Horizontal(d) ==> r.0 == c.0
    ensures d == Right <==> r.0 > c.0
    ensures d == Left <==> r.0 < c.0
    ensures d == Down <==> r.1 > c.1
    ensures d == Up <==> r.1 < c.1
  {
    match d
    case Left => (c.0 - SnakeSize, c.1)
    case Right => (c.0 + SnakeSize, c.1)
    case Up => (c.0, c.1 - SnakeSize)
    case Down => (c.0, c.1 + SnakeSize)
  }

  /** Moving one cell and then one cell the opposite way returns to the start. */
  lemma ShiftUndoneByOpposite(c: Cell, d: Direction)
    ensures Shift(Shift(c, d), Opposite(d)) == c
  {
  }

  /** Moving keeps a cell-aligned position cell-aligned. */
  lemma ShiftKeepsAlignment(c: Cell, d: Direction)
    requires Aligned(c)
    ensures Aligned(Shift(c, d))
  {
  }
}

=== FILE: levels.dfy ===
/** The static level table `LEVELS` of snake.py: per level a tick rate, a
    list of wall cells and a food timeout in seconds. */
module Levels {

  import opened Optional
  import opened Grid

  datatype LevelDef = LevelDef(speed: int, walls: seq<Cell>, foodTimeout: int)

  /** `len(LEVELS)`, the highest level. */
  const LevelCount: int := 3
  /** A level is left once the score reaches `level * PointsPerLevel`. */
  const PointsPerLevel: int := 10

  predicate IsLevel(n: int) {
    1 <= n <= LevelCount
  }

  function Table(): map<int, LevelDef> {
    map[
      1 := LevelDef(10, [], 5),
      2 := LevelDef(13, [(100, 100), (100, 110), (100, 120)], 4),
      3 := LevelDef(16, [(200, 200), (200, 210), (210, 200), (210, 210)], 3)
    ]
  }

  /** `LEVELS[n]`, or None where Python would raise KeyError. */
  function Lookup(n: int): (r: Option<LevelDef>)
    ensures r.Some? <==> IsLevel(n)
  {
    if n in Table() then Some(Table()[n]) else None
  }

  /** The table has exactly `LevelCount` entries, so `len(LEVELS)` is the
      highest key. */
  lemma TableSize()
    ensures |Table()| == LevelCount
    ensures forall n :: n in Table() <==> IsLevel(n)
  {
    assert Table().Keys == {1, 2, 3};
  }

  function Get(n: int): LevelDef
    requires IsLevel(n)
  {
    Table()[n]
  }

  function Speed(n: int): int
    requires IsLevel(n)
  {
    Get(n).speed
  }

  function Walls(n: int): seq<Cell>
    requires IsLevel(n)
  {
    Get(n).walls
  }

  /** Every wall is a cell of the grid; level 1 has none; each level is
      faster and has a shorter food timeout than the one before. */
  lemma TableShape()
    ensures forall n, w :: IsLevel(n) && w in Walls(n) ==> OnGrid(w)
    ensures Walls(1) == []
    ensures forall n :: 1 <= n < LevelCount ==> Speed(n) < Speed(n + 1)
    ensures forall n :: 1 <= n < LevelCount ==> Get(n + 1).foodTimeout < Get(n).foodTimeout
  {
  }
}

=== FILE: optional.dfy ===
/** A value that may be absent: a missing save file, a food placement that
    did not find a free cell among the supplied draws, a level that is not
    in the table. */
module Optional {

  datatype Option<+T> = None | Some(value: T)
}

=== FILE: user_store.dfy ===
/** `UserData` of snake.py: one player's unlocked level and the single save
    file `game_state.json`. The file is one slot that holds the last record
    written, whoever wrote it; absence of a usable record yields defaults. */
module UserStore {

  import opened Optional
  import opened Grid
  import opened Food

  /** The fields `save_game_state` writes besides the username. The food
      timestamp is not modelled. */
  datatype SavedGame = SavedGame(
    score: int,
    level: int,
    body: seq<Cell>,
    dir: Direction,
    food: Food,
    speed: int)

  /** The two shapes of JSON object the program writes: `save_user_level`
      writes `{username, current_level}`; `save_game_state` writes a game
      snapshot, which has no `current_level` key. */
  datatype Record =
    | LevelRecord(username: string, currentLevel: int)
    | GameRecord(username: string, game: SavedGame)

  /** A `UserData` object together with the file it reads and writes. */
  datatype UserData = UserData(username: string, currentLevel: int, file: Option<Record>)

  /** True when the file holds a record written for `name`. */
  predicate OwnedBy(file: Option<Record>, name: string) {
    file.Some? && file.value.username == name
  }

  /** `load_user_level`: a record of this user replaces the current level
      with its `current_level`, defaulting to 1 when the key is missing. */
  function LoadUserLevel(u: UserData): (r: UserData)
    ensures r.username == u.username && r.file == u.file
    ensures !OwnedBy(u.file, u.username) ==> r.currentLevel == u.currentLevel
    ensures OwnedBy(u.file, u.username) && u.file.value.GameRecord? ==> r.currentLevel == 1
    ensures OwnedBy(u.file, u.username) && u.file.value.LevelRecord? ==> r.currentLevel == u.file.value.currentLevel
  {
    match u.file
    case Some(LevelRecord(name, level)) =>
      if name == u.username then u.(currentLevel := level) else u
    case Some(GameRecord(name, _)) =>
      if name == u.username then u.(currentLevel := 1) else u
    case None => u
  }

  /** `UserData(username)`: level 1, then `load_user_level`. */
  function NewUserData(username: string, file: Option<Record>): (r: UserData)
    ensures r.username == username && r.file == file
    ensures r.currentLevel == if OwnedBy(file, username) && file.value.LevelRecord? then file.value.currentLevel else 1
  {
    LoadUserLevel(UserData(username, 1, file))
  }

  /** `save_user_level`: records the level in memory and overwrites the file. */
  function SaveUserLevel(u: UserData, level: int): (r: UserData)
    ensures r.username == u.username && r.currentLevel == level
    ensures OwnedBy(r.file, u.username) && r.file.value.LevelRecord?
    ensures NewUserData(u.username, r.file).currentLevel == level
  {
    UserData(u.username, level, Some(LevelRecord(u.username, level)))
  }

  /** `save_game_state`: overwrites the file with a snapshot and leaves the
      in-memory level alone. */
  function SaveGameState(u: UserData, g: SavedGame): (r: UserData)
    ensures r.username == u.username && r.currentLevel == u.currentLevel
    ensures OwnedBy(r.file, u.username) && r.file.value.GameRecord? && r.file.value.game == g
  {
    u.(file := Some(GameRecord(u.username, g)))
  }

  /** `load_game_state` as written: returns whatever record of this user the
      file holds, including a level record that is not a game snapshot. */
  function LoadGameState(u: UserData): (r: Option<Record>)
    ensures r.Some? <==> OwnedBy(u.file, u.username)
    ensures r.Some? ==> r == u.file
  {
    if OwnedBy(u.file, u.username) then u.file else None
  }

  /** `load_game_state` as evidently intended: only a game snapshot of this
      user counts as a saved game. */
  function LoadSnapshot(u: UserData): (r: Option<SavedGame>)
    ensures r.Some? <==> OwnedBy(u.file, u.username) && u.file.value.GameRecord?
    ensures r.Some? ==> u.file == Some(GameRecord(u.username, r.value))
  {
    match LoadGameState(u)
    case Some(GameRecord(_, g)) => Some(g)
    case _ => None
  }

  /** Once a level is saved, re-reading the file restores it whatever level
      the object held in memory meanwhile. */
  lemma LevelRoundTrip(u: UserData, level: int, prior: int)
    ensures LoadUserLevel(SaveUserLevel(u, level).(currentLevel := prior)).currentLevel == level
  {
  }

  /** Saving a snapshot and loading it for the same user returns it unchanged. */
  lemma SnapshotRoundTrip(u: UserData, g: SavedGame)
    ensures LoadSnapshot(SaveGameState(u, g)) == Some(g)
  {
  }

  /** A snapshot write replaces the level record: a later `UserData` for the
      same name starts at level 1 whatever level was unlocked before. */
  lemma SnapshotForgetsLevel(u: UserData, g: SavedGame)
    ensures NewUserData(u.username, SaveGameState(u, g).file).currentLevel == 1
  {
  }

  /** Records written for another name are ignored: defaults come back. */
  lemma ForeignRecordIgnored(name: string, file: Option<Record>)
    requires file.Some? && file.value.username != name
    ensures NewUserData(name, file).currentLevel == 1
    ensures LoadGameState(NewUserData(name, file)) == None
    ensures LoadSnapshot(NewUserData(name, file)) == None
  {
  }

  /** Last write wins: only the most recent save is visible. */
  lemma LastWriteWins(u: UserData, g: SavedGame, level: int)
    ensures LoadSnapshot(SaveUserLevel(SaveGameState(u, g), level)) == None
    ensures LoadSnapshot(SaveGameState(SaveUserLevel(u, level), g)) == Some(g)
    ensures NewUserData(u.username, SaveUserLevel(SaveGameState(u, g), level).file).currentLevel == level
  {
  }

  /** The defect of `load_game_state` as written: after a level-up the file
      holds a level record, which is handed back as a saved game although it
      has none of the snapshot's keys. */
  lemma LevelRecordOfferedAsSavedGame(u: UserData, level: int)
    ensures LoadGameState(SaveUserLevel(u, level)).Some?
    ensures LoadGameState(SaveUserLevel(u, level)).value.LevelRecord?
    ensures LoadSnapshot(SaveUserLevel(u, level)) == None
  {
  }
}
